=== FILE: README.md ===
# dylib lifetime model

A Dafny model of the lifetime state machine in `dynamic_link.hpp` (the `dylib`
header). Three kinds of values are modelled:

- **`_detail::handle_object`**: a cell that owns one native library token and closes it
  in its destructor.
- **`library`**: an owner holding a `shared_ptr` to a cell and the name it was opened with.
- **`function<Sig>`**: a binding holding a raw address, a symbol name and a `weak_ptr`
  to the cell.

The model is functional. A `World` holds four things:

- the cells, each with its token, its strong count and whether it has been destroyed;
- the owner variables and the binding variables, each in scope or destroyed;
- the log of `close_library` calls.

Every public operation is a pure transition on `World`. The accessors `get_name`,
`get_symbol` and `function::get` (dynamic_link.hpp:153-155, 109-111, 105-107) are the
field reads `LibraryOwner.GetName`, `FunctionBinding.GetSymbol` and
`FunctionBinding.BindingGet`. What they return is stated by the operations: for example
`Construct` gives the opened name and `Resolve` gives the requested symbol and the looked-up
address. `OwnershipStore.Acquire` and `OwnershipStore.Drop` are the two halves of a
`shared_ptr` assignment, the increment on the new target and the decrement on the old
one, with the `handle_object` destructor when the count reaches zero. Their combined
effect is the contract of `OwnershipStore.Reassign` and `OwnershipStore.AddOwner`. The loader primitives are
opaque. `open_library` and `get_function` are fields of a `Loader` record passed in
as a parameter. `close_library` is an event appended to the log.

Modules:

- `NativeLoader`: the opaque token, address and loader types.
- `OwnershipStore`: the cells and the store invariant, plus the `shared_ptr` reference moves.
- `LibraryOwner`: every `library` operation.
- `FunctionBinding`: `library::get` and every `function` operation.
- `Lifetime`: whole programs, end of scope, and the theorems that tie them together.

The invariant `Inv` says five things:

- each cell's strong count is the number of owner variables pointing at it (bindings never count);
- a cell is destroyed exactly when that count is zero;
- a destroyed cell appears in the close log exactly once, and a live cell never does;
- every close event passes the token of its own cell;
- every pointer refers to an existing cell.

Every operation preserves `Inv`.

The model follows the code as written in two places where one might expect otherwise:

- `release()` is `m_handle.reset()` on the one owner. It makes that owner false. Copies
  sharing the cell stay true, and the cell is only closed when the last copy lets go.
  `Lifetime.ReleaseIsPerOwner` shows this on a concrete sequence of calls: open, copy,
  get, then release the original.
- `library::operator bool` tests the `shared_ptr`, not the native token. A library
  whose open failed is still true, and its null token is still passed to
  `close_library` when the last owner goes.

## Model

| member | source | states |
|---|---|---|
| `OwnershipStore.Reassign` | dynamic_link.hpp:63-65 | Pointing an owner variable at a new value keeps the invariant. The log gains one close, carrying the old cell's own token, exactly when this owner was the only one holding that cell and the new value does not hold it. |
| `OwnershipStore.AddOwner` | dynamic_link.hpp:124 | A new owner variable keeps the invariant. It raises the count of the cell it shares by one and leaves every other count, every token and the log unchanged. |
| `OwnershipStore.SoleHolderCount` | dynamic_link.hpp:116 | An owner's cell always has a strong count of at least one. That count is exactly one precisely when no other owner variable points at the cell. |
| `LibraryOwner.LibraryBool` | dynamic_link.hpp:136-138 | `operator bool` is true exactly when the owner's `shared_ptr` is non-null, whatever the token. In any state keeping the invariant, a true owner's cell exists, has a count of at least one and has not been closed. |
| `LibraryOwner.Token` | dynamic_link.hpp:70-72 | The token `get` hands to the loader is the one stored in the owner's cell. While an owner holds the cell, the log has no close of that cell. |
| `LibraryOwner.Construct` | dynamic_link.hpp:127 | Constructing a `library` opens a fresh cell holding the loader's token for the name. The new owner is true even when that token is null. It is the cell's only owner and keeps the given name. Nothing is closed and no other variable changes. |
| `LibraryOwner.CopyConstruct` | dynamic_link.hpp:124 | A copy shares the source's cell and name and has the same truth value. The shared cell's count goes up by one and it stays open. Nothing is closed. |
| `LibraryOwner.MoveConstruct` | dynamic_link.hpp:125 | A move-constructed owner takes the source's pointer and name. The source becomes null and false. No cell changes at all, and nothing is closed. |
| `LibraryOwner.CopyAssign` | dynamic_link.hpp:133 | After copy assignment the target holds the source's pointer and name. The target's previous cell is closed only if the target was its last owner and the source does not share it. Self-assignment is a no-op. |
| `LibraryOwner.MoveAssign` | dynamic_link.hpp:134 | After move assignment between two owners the target holds the source's value and the source becomes null. The target's previous cell is closed only if the target was its last owner and the source did not share it. On self-move the pointer is kept and the name becomes empty, as a moved-from string does. No cell or log entry changes then. |
| `LibraryOwner.Swap` | dynamic_link.hpp:145-148 | `swap` exchanges the pointer and the name of the two owners and changes no other owner. No cell count changes and nothing is logged. |
| `LibraryOwner.Release` | dynamic_link.hpp:150-152 | `release` makes only this owner false. It keeps this owner's name and leaves every other owner as it was. It closes the cell only if no other owner shares it. |
| `LibraryOwner.Destroy` | dynamic_link.hpp:129-131 | Destroying an owner removes it. Its cell is closed, with its own token, exactly when no other owner shares it. |
| `LibraryOwner.ReleaseClosesIffLast` | dynamic_link.hpp:119-121 | After `release` or destruction, the owner's cell is closed if and only if no other owner variable pointed at it. |
| `LibraryOwner.ReleaseIdempotent` | dynamic_link.hpp:150-152 | Calling `release` a second time leaves the whole state exactly as the first call left it: no further close, still false, same name. |
| `LibraryOwner.ReleaseSparesCopies` | dynamic_link.hpp:150-152 | Releasing one owner leaves any other true owner true, with the same name, and keeps that owner's cell open. |
| `FunctionBinding.BindingBool` | dynamic_link.hpp:101-103 | In any state keeping the invariant, a binding's `operator bool` holds if and only if its address is non-null and the cell it observes has not been closed. |
| `FunctionBinding.Resolve` | dynamic_link.hpp:140-143 | `get` returns a binding whose address is the loader's lookup of the symbol under the cell's token and whose symbol is the requested one. The binding observes the owner's cell. It is true exactly when the lookup was non-null. A null result is still returned. No cell, owner or log entry changes. |
| `FunctionBinding.CopyBinding` | dynamic_link.hpp:91 | A copied binding equals its source and has the same truth value. No cell count, owner or log entry changes. |
| `FunctionBinding.MoveBinding` | dynamic_link.hpp:92 | A move-constructed binding takes the source's value. The source becomes false but keeps its raw address, since a moved pointer is copied. No cell count, owner or log entry changes. |
| `FunctionBinding.CopyAssignBinding` | dynamic_link.hpp:94 | After copy assignment the target binding equals the source and has the same truth value. Cells, owners and log are untouched. |
| `FunctionBinding.MoveAssignBinding` | dynamic_link.hpp:95 | After move assignment between two bindings the target takes the source's value. The source keeps only its address and is false. On self-move the address and the observed cell are kept, the symbol becomes empty, and the truth value is unchanged. Cells, owners and log are untouched. |
| `FunctionBinding.DestroyBinding` | dynamic_link.hpp:86 | Destroying a binding removes only that variable. Because it holds a weak reference, no cell count changes and nothing is closed. |
| `FunctionBinding.BindingsNeverDelayClose` | dynamic_link.hpp:86 | `release` and owner destruction change the cells and the close log identically whatever binding variables exist. A binding never keeps a library loaded. |
| `FunctionBinding.LastDropInvalidatesBindings` | dynamic_link.hpp:101-103 | When the last owner of a cell is released or destroyed, every binding observing that cell becomes false. |
| `FunctionBinding.SharedDropKeepsBindings` | dynamic_link.hpp:101-103 | Releasing or destroying an owner whose cell is shared with another owner leaves every binding's truth value unchanged. |
| `Lifetime.LibraryStep` | dynamic_link.hpp:124-134 | Every state-changing `library` operation keeps the invariant: construction from a name, copy and move construction, destruction, copy and move assignment cited here, and `swap` and `release` at dynamic_link.hpp:145-152. `operator bool` and `get_name` are `const` queries that change no state, so they need no step; `get` belongs to `FunctionStep`. Each step only appends to the close log and never drops, re-tokens or reopens a cell. |
| `Lifetime.FunctionStep` | dynamic_link.hpp:88-95 | `library::get` at dynamic_link.hpp:140-143 and the state-changing `function` operations cited here (copy and move construction, copy and move assignment) keep the invariant, and so does the end of a binding's scope. Each leaves every cell, every owner variable and the close log unchanged. `operator bool`, `get` and `get_symbol` are `const` queries that change no state; `operator()` is left out. |
| `Lifetime.Step` | dynamic_link.hpp:114-156 | Every state-changing operation, of `library` or of `function`, keeps the invariant. It only appends to the close log and never drops, re-tokens or reopens a cell. |
| `Lifetime.Run` | dynamic_link.hpp:114-156 | Any sequence of well-defined calls keeps the invariant. It only appends to the close log, and a closed cell stays closed. |
| `Lifetime.TearDown` | dynamic_link.hpp:129-131 | End of scope destroys the owner variables in reverse order of construction, most recent first. It keeps the invariant, makes every destroyed variable gone, leaves later variables alone and keeps the cells' tokens. |
| `Lifetime.TearDownClosesLastFirst` | dynamic_link.hpp:63-65 | Two libraries opened one after the other are closed in reverse order at end of scope: the second one's token is passed to `close_library` first. |
| `Lifetime.NoOwnersAllClosedOnce` | dynamic_link.hpp:63-65 | Once no owner holds a pointer, every cell ever opened has been closed, and exactly once. |
| `Lifetime.TearDownClosesEachCellOnce` | dynamic_link.hpp:63-65 | After every owner has been destroyed in reverse order, every cell is closed exactly once with its original token, null tokens included, whatever bindings remain. |
| `Lifetime.RunClosesAtMostOnce` | dynamic_link.hpp:63-65 | In any program run from the empty state, no cell is closed twice. A cell is destroyed exactly when the log records its close, and every close passes that cell's token. |
| `Lifetime.ProgramClosesEachCellOnce` | dynamic_link.hpp:63-65 | In any program run from the empty state, once all owners have gone out of scope every opened cell has been closed exactly once. |
| `Lifetime.ReleaseIsPerOwner` | dynamic_link.hpp:150-152 | Take an opened library with one copy and one resolved binding. Releasing the original makes only the original false. The copy stays true, nothing is closed, and the binding stays true whenever the symbol resolved. |
| `Lifetime.FailedOpenStillTrue` | dynamic_link.hpp:136-137 | A library whose open returned a null token is still true. Destroying it still passes the null token to `close_library`. |

## Left out

- `open_library`, `get_function` and `close_library` (dynamic_link.hpp:28-53) are foreign calls into the OS loader. The first two are opaque functions of a `Loader` parameter. The third is an event in the close log; its boolean result is ignored by the destructor and is not modelled.
- `function::operator()` (dynamic_link.hpp:97-99) executes native code through an unchecked signature. It has no state effect to model.
- The `reinterpret_cast` to a typed pointer (dynamic_link.hpp:142), the `function_pointer` alias and the call-signature template parameters are not modelled. A binding is one untyped record.
- The defaulted move operations of `handle_object` (dynamic_link.hpp:61, dynamic_link.hpp:68) are left out. Cells are only ever created through `make_shared` and never moved.
- Thread safety of the reference counts is not modelled. The model is sequential, so races between `release` and a call through a binding do not arise in it.
- The `_WIN32` / POSIX preprocessor split is left out. Both branches have the same shape, which the opaque `Loader` covers.
- The `weak_ptr` count and the freeing of the control block are left out. Neither is observable through the interface.
- A moved-from `std::string` is modelled as the empty string, including a name or symbol moved onto itself by self-move assignment. The C++ standard only says it is valid but unspecified; libstdc++ empties it.
- Using a destroyed variable, or calling `get` through a null pointer, is undefined in the source. `Lifetime.Run` returns `None` for such a program, and the single-operation functions exclude it in their preconditions.
- `Loader.open` and `Loader.resolve` depend only on their arguments. Two cells opened with the same name therefore carry the same token, as `dlopen` hands back one handle and counts each open. "Closed exactly once" is a statement per cell, not per token: the same token value may be passed to `close_library` once for each cell that holds it.
- Allocation failure is not modelled. `library(const std::string&)` (dynamic_link.hpp:127) allocates in `make_shared` and copies the name, and `get` (dynamic_link.hpp:140-143) copies the symbol, both inside `noexcept` functions, so a `bad_alloc` there calls `std::terminate`.

=== FILE: function_binding.dfy ===
/** `dylib::function<Ret(Args...)>`: a resolved address, the symbol it was
    resolved from, and a `weak_ptr` to the cell of the library it came
    from. The call signature is not modelled: a binding is one untyped
    record. A variable is addressed by its position in `World.bindings`. */
module FunctionBinding {
  import opened NativeLoader
  import opened OwnershipStore
  import opened LibraryOwner

  type BindingId = nat

  /** Binding variable `b` exists and has not been destroyed. */
  predicate IsBound(w: World, b: BindingId)
  {
    b < |w.bindings| && w.bindings[b].Live?
  }

  /** The cell a binding's `weak_ptr` refers to is in the store. */
  predicate Observable(w: World, b: BindingId)
  {
    IsBound(w, b) && (w.bindings[b].value.observed.Some? ==> w.bindings[b].value.observed.value < |w.cells|)
  }

  /** `function::operator bool`: a non-null address and a `weak_ptr` that
      has not expired, that is, whose cell still has a strong reference.
      In a state that keeps the invariant this is exactly a non-null
      address whose library has not been closed. */
  function BindingBool(w: World, b: BindingId): (r: bool)
    requires Observable(w, b)
    ensures Inv(w) ==>
      var f := w.bindings[b].value;
      (r <==> f.addr != NullAddress && f.observed.Some? && !w.cells[f.observed.value].closed)
  {
    var f := w.bindings[b].value;
    assert Inv(w) && f.observed.Some? ==> CellOk(w, f.observed.value);
    f.addr != NullAddress && f.observed.Some? && w.cells[f.observed.value].strong != 0
  }

  /** `function::get`. */
  function BindingGet(w: World, b: BindingId): Address
    requires IsBound(w, b)
  {
    w.bindings[b].value.addr
  }

  /** `function::get_symbol`. */
  function GetSymbol(w: World, b: BindingId): string
    requires IsBound(w, b)
  {
    w.bindings[b].value.symbol
  }

  /** The invariant does not look at bindings beyond the cells they name. */
  lemma BindingsApart(w: World, bs: seq<Slot<Binding>>)
    requires Inv(w)
    requires forall b :: 0 <= b < |bs| && bs[b].Live? && bs[b].value.observed.Some? ==> bs[b].value.observed.value < |w.cells|
    ensures Inv(w.(bindings := bs))
  {
    forall c | 0 <= c < |w.cells|
      ensures CellOk(w.(bindings := bs), c)
    {
      assert CellOk(w, c);
    }
  }

  /** A new binding variable holding `f` comes into scope; no cell and no
      owner is touched. */
  function AddBinding(w: World, f: Binding): (w': World)
    requires Inv(w)
    requires f.observed.Some? ==> f.observed.value < |w.cells|
    ensures Inv(w')
    ensures w'.bindings == w.bindings + [Live(f)]
    ensures w'.cells == w.cells && w'.owners == w.owners && w'.log == w.log
  {
    BindingsApart(w, w.bindings + [Live(f)]);
    w.(bindings := w.bindings + [Live(f)])
  }

  /** Binding variable `b` now holds `s`; no cell and no owner is touched. */
  function SetBinding(w: World, b: BindingId, s: Slot<Binding>): (w': World)
    requires Inv(w) && b < |w.bindings|
    requires s.Live? && s.value.observed.Some? ==> s.value.observed.value < |w.cells|
    ensures Inv(w')
    ensures w'.bindings == w.bindings[b := s]
    ensures w'.cells == w.cells && w'.owners == w.owners && w'.log == w.log
  {
    BindingsApart(w, w.bindings[b := s]);
    w.(bindings := w.bindings[b := s])
  }

  /** `library::get<Func>(symbol)`: looks `symbol` up with the cell's
      token and returns a binding to it whatever the lookup gave, null
      included. The owner's pointer must be non-null, since `get`
      dereferences it. */
  function Resolve(w: World, ld: Loader, o: OwnerId, symbol: string): (r: (World, BindingId))
    requires Inv(w) && IsLive(w, o) && LibraryBool(w, o)
    ensures Inv(r.0) && r.1 == |w.bindings| && Observable(r.0, r.1)
    ensures BindingGet(r.0, r.1) == ld.resolve(Token(w, o), symbol)
    ensures GetSymbol(r.0, r.1) == symbol
    ensures r.0.bindings[r.1].value.observed == Held(w.owners[o])
    ensures BindingBool(r.0, r.1) <==> ld.resolve(Token(w, o), symbol) != NullAddress
    ensures forall j :: 0 <= j < |w.bindings| ==> r.0.bindings[j] == w.bindings[j]
    ensures r.0.cells == w.cells && r.0.owners == w.owners && r.0.log == w.log
  {
    HeldCellLive(w, o);
    var f := Binding(ld.resolve(Token(w, o), symbol), symbol, Held(w.owners[o]));
    (AddBinding(w, f), |w.bindings|)
  }

  /** `function(const function&)`. */
  function CopyBinding(w: World, src: BindingId): (r: (World, BindingId))
    requires Inv(w) && IsBound(w, src)
    ensures Inv(r.0) && r.1 == |w.bindings| && Observable(r.0, r.1) && Observable(r.0, src)
    ensures r.0.bindings[r.1] == w.bindings[src]
    ensures BindingBool(r.0, r.1) == BindingBool(r.0, src)
    ensures forall j :: 0 <= j < |w.bindings| ==> r.0.bindings[j] == w.bindings[j]
    ensures r.0.cells == w.cells && r.0.owners == w.owners && r.0.log == w.log
  {
    (AddBinding(w, w.bindings[src].value), |w.bindings|)
  }

  /** What a moved-from binding holds: the raw address is copied, so it
      stays; the symbol becomes empty and the `weak_ptr` empty. */
  function MovedFromBinding(f: Binding): Binding
  {
    Binding(f.addr, "", None)
  }

  /** `function(function&&)`: the new binding takes everything; the source
      is left false. */
  function MoveBinding(w: World, src: BindingId): (r: (World, BindingId))
    requires Inv(w) && IsBound(w, src)
    ensures Inv(r.0) && r.1 == |w.bindings| && Observable(r.0, r.1) && Observable(r.0, src)
    ensures r.0.bindings[r.1] == w.bindings[src]
    ensures !BindingBool(r.0, src) && BindingGet(r.0, src) == BindingGet(w, src)
    ensures forall j :: 0 <= j < |w.bindings| && j != src ==> r.0.bindings[j] == w.bindings[j]
    ensures r.0.cells == w.cells && r.0.owners == w.owners && r.0.log == w.log
  {
    var f := w.bindings[src].value;
    var w1 := AddBinding(w, f);
    (SetBinding(w1, src, Live(MovedFromBinding(f))), |w.bindings|)
  }

  /** `function::operator=(const function&)`. */
  function CopyAssignBinding(w: World, dst: BindingId, src: BindingId): (w': World)
    requires Inv(w) && IsBound(w, dst) && IsBound(w, src)
    ensures Inv(w') && Observable(w', dst) && Observable(w', src)
    ensures w'.bindings == w.bindings[dst := w.bindings[src]]
    ensures BindingBool(w', dst) == BindingBool(w', src)
    ensures w'.cells == w.cells && w'.owners == w.owners && w'.log == w.log
  {
    SetBinding(w, dst, w.bindings[src])
  }

  /** `function::operator=(function&&)`. On self-move the address and the
      `weak_ptr` keep their values and the symbol is left as a moved-from
      string, empty. */
  function MoveAssignBinding(w: World, dst: BindingId, src: BindingId): (w': World)
    requires Inv(w) && IsBound(w, dst) && IsBound(w, src)
    ensures Inv(w')
    ensures dst != src ==>
      w'.bindings == w.bindings[dst := w.bindings[src]][src := Live(MovedFromBinding(w.bindings[src].value))]
    ensures dst != src ==>
      Observable(w', src) && !BindingBool(w', src) && BindingGet(w', src) == BindingGet(w, src)
    ensures dst == src ==>
      && w'.bindings == w.bindings[dst := Live(w.bindings[dst].value.(symbol := ""))]
      && Observable(w, dst) && Observable(w', dst)
      && BindingBool(w', dst) == BindingBool(w, dst)
    ensures w'.cells == w.cells && w'.owners == w.owners && w'.log == w.log
  {
    if dst == src then SetBinding(w, dst, Live(w.bindings[dst].value.(symbol := "")))
    else
      var f := w.bindings[src].value;
      SetBinding(SetBinding(w, dst, Live(f)), src, Live(MovedFromBinding(f)))
  }

  /** `~function()`: the variable is gone and nothing else happens. */
  function DestroyBinding(w: World, b: BindingId): (w': World)
    requires Inv(w) && IsBound(w, b)
    ensures Inv(w') && w'.bindings == w.bindings[b := Dead]
    ensures w'.cells == w.cells && w'.owners == w.owners && w'.log == w.log
  {
    SetBinding(w, b, Dead)
  }

  // ---------------------------------------------------------------------
  // Properties across operations

  /** Bindings never keep a cell alive: what `release()` or `~library()`
      does to the cells and to the close log is the same whatever
      bindings exist. */
  lemma BindingsNeverDelayClose(w: World, bs: seq<Slot<Binding>>, o: OwnerId)
    requires Inv(w) && IsLive(w, o)
    requires Inv(w.(bindings := bs))
    ensures Release(w.(bindings := bs), o).cells == Release(w, o).cells
    ensures Release(w.(bindings := bs), o).log == Release(w, o).log
    ensures Destroy(w.(bindings := bs), o).cells == Destroy(w, o).cells
    ensures Destroy(w.(bindings := bs), o).log == Destroy(w, o).log
  {
  }

  /** Releasing or destroying the last owner of a cell turns every binding
      observing that cell false. */
  lemma LastDropInvalidatesBindings(w: World, o: OwnerId, b: BindingId)
    requires Inv(w) && IsLive(w, o) && IsBound(w, b)
    requires SoleHolder(w.owners, o)
    requires w.bindings[b].value.observed == Held(w.owners[o])
    ensures Observable(Release(w, o), b) && !BindingBool(Release(w, o), b)
    ensures Observable(Destroy(w, o), b) && !BindingBool(Destroy(w, o), b)
  {
  }

  /** Releasing or destroying an owner whose cell is shared leaves every
      binding's `operator bool` as it was. */
  lemma SharedDropKeepsBindings(w: World, o: OwnerId, b: BindingId)
    requires Inv(w) && IsLive(w, o) && IsBound(w, b)
    requires !SoleHolder(w.owners, o)
    ensures Observable(w, b) && Observable(Release(w, o), b) && Observable(Destroy(w, o), b)
    ensures BindingBool(Release(w, o), b) == BindingBool(w, b)
    ensures BindingBool(Destroy(w, o), b) == BindingBool(w, b)
  {
  }
}

=== FILE: library_owner.dfy ===
/** `dylib::library`: an owner of one shared cell plus the name it was
    opened with. Every operation is a transition of the `World`; a
    variable is addressed by its position in `World.owners`. */
module LibraryOwner {
  import opened NativeLoader
  import opened OwnershipStore

  type OwnerId = nat

  /** Owner variable `o` exists and has not been destroyed. */
  predicate IsLive(w: World, o: OwnerId)
  {
    o < |w.owners| && w.owners[o].Live?
  }

  /** `library::operator bool`: whether the `shared_ptr` is non-null. The
      native token inside the cell is not consulted, so a true owner may
      hold a null token; what a true owner does guarantee is that its cell
      is counted and has not been closed. */
  function LibraryBool(w: World, o: OwnerId): (b: bool)
    requires IsLive(w, o)
    ensures b <==> Held(w.owners[o]).Some?
    ensures Inv(w) && b ==>
      && Held(w.owners[o]).value < |w.cells|
      && w.cells[Held(w.owners[o]).value].strong >= 1
      && !w.cells[Held(w.owners[o]).value].closed
  {
    HeldCellLive(w, o);
    w.owners[o].value.handle.Some?
  }

  /** `library::get_name`. */
  function GetName(w: World, o: OwnerId): string
    requires IsLive(w, o)
  {
    w.owners[o].value.name
  }

  /** `m_handle->get()`: the token of the cell owner `o` points at; only
      defined while the pointer is non-null. While an owner holds the
      cell, the log has no close of that cell. */
  function Token(w: World, o: OwnerId): (t: NativeHandle)
    requires Inv(w) && IsLive(w, o) && LibraryBool(w, o)
    ensures forall i :: 0 <= i < |w.log| ==> w.log[i].cell != Held(w.owners[o]).value
    ensures t == w.cells[Held(w.owners[o]).value].token
  {
    var c := Held(w.owners[o]).value;
    HeldCellLive(w, o);
    assert CellOk(w, c);
    CloseCountZero(w.log, c);
    w.cells[c].token
  }

  /** What a moved-from `library` holds: a null pointer and an empty name. */
  const MovedFrom: Library := Library(None, "")

  /** Every cell of `w` is still in `w'` with the same token, and a cell
      already closed stays closed. */
  ghost predicate Persists(w: World, w': World)
  {
    && |w.cells| <= |w'.cells|
    && forall c :: 0 <= c < |w.cells| ==>
         w'.cells[c].token == w.cells[c].token && (w.cells[c].closed ==> w'.cells[c].closed)
  }

  lemma CellShape(w: World, c: CellId)
    requires Inv(w) && c < |w.cells|
    ensures w.cells[c] == Cell(w.cells[c].token, RefCount(w.owners, c), RefCount(w.owners, c) == 0)
  {
    assert CellOk(w, c);
  }

  /** The cell an owner points at is in the store and counted. */
  lemma HeldCellLive(w: World, o: OwnerId)
    requires IsLive(w, o)
    ensures Inv(w) && Held(w.owners[o]).Some? ==>
      && Held(w.owners[o]).value < |w.cells|
      && w.cells[Held(w.owners[o]).value].strong > 0
      && !w.cells[Held(w.owners[o]).value].closed
  {
    if Inv(w) && Held(w.owners[o]).Some? {
      SoleHolderCount(w.owners, o);
      assert CellOk(w, Held(w.owners[o]).value);
    }
  }

  /** The state right after `make_shared<handle_object>`: a fresh cell with
      token `t` and one strong reference, held by a new owner variable. */
  lemma OpenedSound(w: World, t: NativeHandle, name: string)
    requires Inv(w)
    ensures var c := |w.cells|;
      var w' := World(w.cells + [Cell(t, 1, false)], w.owners + [Live(Library(Some(c), name))], w.bindings, w.log);
      Inv(w') && SoleHolder(w'.owners, |w.owners|)
  {
    var c := |w.cells|;
    var s := Live(Library(Some(c), name));
    var w' := World(w.cells + [Cell(t, 1, false)], w.owners + [s], w.bindings, w.log);
    RefCountZero(w.owners, c);
    CloseCountAbsent(w.log, c);
    forall d | 0 <= d < |w'.cells|
      ensures CellOk(w', d)
    {
      if d < c {
        assert CellOk(w, d);
      }
      RefCountAppend(w.owners, s, d);
    }
  }

  /** `library(const std::string& name)`: `make_shared<handle_object>(name)`
      opens the library and the new owner is the cell's only holder. */
  function Construct(w: World, ld: Loader, name: string): (r: (World, OwnerId))
    requires Inv(w)
    ensures Inv(r.0) && Persists(w, r.0)
    ensures r.1 == |w.owners| && IsLive(r.0, r.1) && |r.0.owners| == |w.owners| + 1
    ensures LibraryBool(r.0, r.1)
    ensures Token(r.0, r.1) == ld.open(name)
    ensures GetName(r.0, r.1) == name
    ensures SoleHolder(r.0.owners, r.1)
    ensures !r.0.cells[Held(r.0.owners[r.1]).value].closed
    ensures forall j :: 0 <= j < |w.owners| ==> r.0.owners[j] == w.owners[j]
    ensures r.0.log == w.log && r.0.bindings == w.bindings
  {
    OpenedSound(w, ld.open(name), name);
    var c := |w.cells|;
    var w' := World(w.cells + [Cell(ld.open(name), 1, false)], w.owners + [Live(Library(Some(c), name))], w.bindings, w.log);
    (w', |w.owners|)
  }

  /** `library(const library&)`: the copy shares the cell, whose strong
      count goes up by one; nothing is opened or closed. */
  function CopyConstruct(w: World, src: OwnerId): (r: (World, OwnerId))
    requires Inv(w) && IsLive(w, src)
    ensures Inv(r.0) && Persists(w, r.0)
    ensures r.1 == |w.owners| && IsLive(r.0, r.1) && |r.0.owners| == |w.owners| + 1
    ensures r.0.owners[r.1] == w.owners[src]
    ensures LibraryBool(r.0, r.1) == LibraryBool(w, src) && GetName(r.0, r.1) == GetName(w, src)
    ensures LibraryBool(w, src) ==>
      var c := Held(w.owners[src]).value;
      r.0.cells[c].strong == w.cells[c].strong + 1 && !r.0.cells[c].closed
    ensures forall j :: 0 <= j < |w.owners| ==> r.0.owners[j] == w.owners[j]
    ensures r.0.log == w.log && r.0.bindings == w.bindings
  {
    HeldCellLive(w, src);
    var w' := AddOwner(w, w.owners[src]);
    (w', |w.owners|)
  }

  /** Moving an owner into a new variable adds a reference and then drops
      one from the same cell, so every cell ends as it began. */
  lemma MoveConstructKeepsCells(w: World, src: OwnerId)
    requires Inv(w) && IsLive(w, src)
    ensures Held(w.owners[src]).Some? ==>
      Held(w.owners[src]).value < |w.cells| && w.cells[Held(w.owners[src]).value].strong > 0
    ensures Reassign(AddOwner(w, w.owners[src]), src, Live(MovedFrom)).cells == w.cells
    ensures Reassign(AddOwner(w, w.owners[src]), src, Live(MovedFrom)).log == w.log
  {
    HeldCellLive(w, src);
    var w1 := AddOwner(w, w.owners[src]);
    var w2 := Reassign(w1, src, Live(MovedFrom));
    assert !SoleHolder(w1.owners, src) by {
      if Held(w1.owners[src]).Some? {
        assert Held(w1.owners[|w.owners|]) == Held(w1.owners[src]);
      }
    }
    forall c | 0 <= c < |w.cells|
      ensures w2.cells[c] == w.cells[c]
    {
      assert CellOk(w, c);
      assert CellOk(w2, c);
    }
  }

  /** `library(library&&)`: the new owner takes the pointer and the name;
      the source is left null with an empty name; no count changes. */
  function MoveConstruct(w: World, src: OwnerId): (r: (World, OwnerId))
    requires Inv(w) && IsLive(w, src)
    ensures Inv(r.0)
    ensures r.1 == |w.owners| && IsLive(r.0, r.1) && |r.0.owners| == |w.owners| + 1
    ensures r.0.owners[r.1] == w.owners[src]
    ensures r.0.owners[src] == Live(MovedFrom) && !LibraryBool(r.0, src)
    ensures forall j :: 0 <= j < |w.owners| && j != src ==> r.0.owners[j] == w.owners[j]
    ensures r.0.cells == w.cells && r.0.log == w.log && r.0.bindings == w.bindings
  {
    MoveConstructKeepsCells(w, src);
    var w2 := Reassign(AddOwner(w, w.owners[src]), src, Live(MovedFrom));
    (w2, |w.owners|)
  }

  /** `library::operator=(const library&)`: `dst` takes `src`'s pointer
      and name; `dst`'s previous cell is closed when `dst` was its last
      owner and `src` does not share it. Self-assignment changes nothing. */
  function CopyAssign(w: World, dst: OwnerId, src: OwnerId): (w': World)
    requires Inv(w) && IsLive(w, dst) && IsLive(w, src)
    ensures Inv(w') && Persists(w, w')
    ensures w'.owners == w.owners[dst := w.owners[src]] && w'.bindings == w.bindings
    ensures LibraryBool(w', dst) == LibraryBool(w, src) && GetName(w', dst) == GetName(w, src)
    ensures w'.log == w.log + LastClose(w, dst, w.owners[src])
    ensures dst == src ==> w' == w
  {
    HeldCellLive(w, src);
    var w' := Reassign(w, dst, w.owners[src]);
    assert dst == src ==> w' == w by {
      if dst == src {
        assert w'.owners == w.owners;
        forall c | 0 <= c < |w.cells|
          ensures w'.cells[c] == w.cells[c]
        {
          CellShape(w, c);
          CellShape(w', c);
        }
      }
    }
    w'
  }

  /** `library::operator=(library&&)`: `dst` takes `src`'s pointer and
      name and `src` is left null with an empty name; `dst`'s previous cell
      is closed when `dst` was its last owner and `src` did not share it.
      On self-move the `shared_ptr` keeps its target and the name is left
      as a moved-from string, empty. */
  function MoveAssign(w: World, dst: OwnerId, src: OwnerId): (w': World)
    requires Inv(w) && IsLive(w, dst) && IsLive(w, src)
    ensures Inv(w') && Persists(w, w')
    ensures dst != src ==> w'.owners == w.owners[dst := w.owners[src]][src := Live(MovedFrom)]
    ensures dst != src ==> w'.log == w.log + LastClose(w, dst, w.owners[src])
    ensures dst == src ==>
      && w'.owners == w.owners[dst := Live(w.owners[dst].value.(name := ""))]
      && LibraryBool(w', dst) == LibraryBool(w, dst)
      && w'.cells == w.cells && w'.log == w.log
    ensures w'.bindings == w.bindings
  {
    HeldCellLive(w, src);
    if dst == src then
      var s := Live(w.owners[dst].value.(name := ""));
      var w' := Reassign(w, dst, s);
      assert w'.cells == w.cells by {
        forall c | 0 <= c < |w.cells|
          ensures w'.cells[c] == w.cells[c]
        {
          assert CellOk(w, c);
          assert CellOk(w', c);
        }
      }
      w'
    else
      var w1 := Reassign(w, dst, w.owners[src]);
      assert !SoleHolder(w1.owners, src) by {
        if Held(w1.owners[src]).Some? {
          assert Held(w1.owners[dst]) == Held(w1.owners[src]);
        }
      }
      Reassign(w1, src, Live(MovedFrom))
  }

  /** `library::swap`: the two owners exchange pointer and name; no count
      changes and nothing is closed. */
  function Swap(w: World, a: OwnerId, b: OwnerId): (w': World)
    requires Inv(w) && IsLive(w, a) && IsLive(w, b)
    ensures Inv(w') && |w'.owners| == |w.owners|
    ensures w'.owners[a] == w.owners[b] && w'.owners[b] == w.owners[a]
    ensures GetName(w', a) == GetName(w, b) && GetName(w', b) == GetName(w, a)
    ensures forall j :: 0 <= j < |w.owners| && j != a && j != b ==> w'.owners[j] == w.owners[j]
    ensures w'.cells == w.cells && w'.log == w.log && w'.bindings == w.bindings
  {
    var t := w.owners[a := w.owners[b]];
    var w' := w.(owners := t[b := w.owners[a]]);
    assert Inv(w') by {
      forall c | 0 <= c < |w.cells|
        ensures CellOk(w', c)
      {
        assert CellOk(w, c);
        RefCountUpdate(w.owners, a, w.owners[b], c);
        RefCountUpdate(t, b, w.owners[a], c);
      }
    }
    w'
  }

  /** `library::release()`, which is `_purge()`, which is `m_handle.reset()`:
      only this owner's pointer becomes null. The cell is closed only when
      this owner was its last holder; copies keep it open and stay true. */
  function Release(w: World, o: OwnerId): (w': World)
    requires Inv(w) && IsLive(w, o)
    ensures Inv(w') && Persists(w, w')
    ensures IsLive(w', o) && !LibraryBool(w', o) && GetName(w', o) == GetName(w, o)
    ensures |w'.owners| == |w.owners|
    ensures forall j :: 0 <= j < |w.owners| && j != o ==> w'.owners[j] == w.owners[j]
    ensures w'.log == w.log + LastClose(w, o, Live(Library(None, GetName(w, o))))
    ensures w'.bindings == w.bindings
  {
    Reassign(w, o, Live(Library(None, GetName(w, o))))
  }

  /** `~library()`: `_purge()` and then the variable is gone. */
  function Destroy(w: World, o: OwnerId): (w': World)
    requires Inv(w) && IsLive(w, o)
    ensures Inv(w') && Persists(w, w')
    ensures w'.owners == w.owners[o := Dead]
    ensures w'.log == w.log + LastClose(w, o, Dead) && w'.bindings == w.bindings
  {
    Reassign(w, o, Dead)
  }

  // ---------------------------------------------------------------------
  // Properties across operations

  /** Dropping a reference closes the cell exactly when no other owner
      variable shares it. */
  lemma ReleaseClosesIffLast(w: World, o: OwnerId)
    requires Inv(w) && IsLive(w, o) && LibraryBool(w, o)
    ensures var c := Held(w.owners[o]).value;
      (Release(w, o).cells[c].closed <==> forall j :: 0 <= j < |w.owners| && j != o ==> Held(w.owners[j]) != Some(c))
    ensures var c := Held(w.owners[o]).value;
      (Destroy(w, o).cells[c].closed <==> forall j :: 0 <= j < |w.owners| && j != o ==> Held(w.owners[j]) != Some(c))
  {
  }

  /** A second `release()` on the same owner does nothing at all. */
  lemma ReleaseIdempotent(w: World, o: OwnerId)
    requires Inv(w) && IsLive(w, o)
    ensures Release(Release(w, o), o) == Release(w, o)
  {
  }

  /** `release()` on one owner leaves every other owner as it was, so a
      copy sharing the cell keeps its `operator bool` true and the cell
      stays open. */
  lemma ReleaseSparesCopies(w: World, o: OwnerId, other: OwnerId)
    requires Inv(w) && IsLive(w, o) && IsLive(w, other) && other != o
    requires LibraryBool(w, other)
    ensures IsLive(Release(w, o), other) && LibraryBool(Release(w, o), other)
    ensures GetName(Release(w, o), other) == GetName(w, other)
    ensures !Release(w, o).cells[Held(w.owners[other]).value].closed
  {
  }
}

=== FILE: lifetime.dfy ===
/** Whole programs over `dylib`: a sequence of library and binding
    operations run from the empty state, and the end of scope that
    destroys every owner. The theorems here are the lifetime guarantees:
    each cell's token is passed to `close_library` once and only once,
    and a closed cell is never reopened or closed again. */
module Lifetime {
  import opened NativeLoader
  import opened OwnershipStore
  import opened LibraryOwner
  import opened FunctionBinding

  /** One use of the `library` interface. Variables are named by position. */
  datatype LibraryOp =
    | Open(name: string)
    | CopyOwner(src: OwnerId)
    | MoveOwner(src: OwnerId)
    | CopyAssignOwner(dst: OwnerId, src: OwnerId)
    | MoveAssignOwner(dst: OwnerId, src: OwnerId)
    | SwapOwners(a: OwnerId, b: OwnerId)
    | ReleaseOwner(o: OwnerId)
    | DestroyOwner(o: OwnerId)

  /** One use of `library::get` or of the `function` interface. */
  datatype FunctionOp =
    | Get(owner: OwnerId, symbol: string)
    | CopyFunction(src: BindingId)
    | MoveFunction(src: BindingId)
    | CopyAssignFunction(dst: BindingId, src: BindingId)
    | MoveAssignFunction(dst: BindingId, src: BindingId)
    | DestroyFunction(b: BindingId)

  datatype Op = OnLibrary(lop: LibraryOp) | OnFunction(fop: FunctionOp)

  /** The operation names variables that are in scope, and `get` is only
      called on an owner whose pointer is non-null. */
  predicate Enabled(w: World, op: Op)
  {
    match op
    case OnLibrary(lop) =>
      (match lop
       case Open(_) => true
       case CopyOwner(src) => IsLive(w, src)
       case MoveOwner(src) => IsLive(w, src)
       case CopyAssignOwner(dst, src) => IsLive(w, dst) && IsLive(w, src)
       case MoveAssignOwner(dst, src) => IsLive(w, dst) && IsLive(w, src)
       case SwapOwners(a, b) => IsLive(w, a) && IsLive(w, b)
       case ReleaseOwner(o) => IsLive(w, o)
       case DestroyOwner(o) => IsLive(w, o))
    case OnFunction(fop) =>
      (match fop
       case Get(o, _) => IsLive(w, o) && LibraryBool(w, o)
       case CopyFunction(src) => IsBound(w, src)
       case MoveFunction(src) => IsBound(w, src)
       case CopyAssignFunction(dst, src) => IsBound(w, dst) && IsBound(w, src)
       case MoveAssignFunction(dst, src) => IsBound(w, dst) && IsBound(w, src)
       case DestroyFunction(b) => IsBound(w, b))
  }

  /** One `library` operation: the invariant is kept, the close log only
      grows, and no cell is forgotten, retokened or reopened. */
  function LibraryStep(w: World, ld: Loader, lop: LibraryOp): (w': World)
    requires Inv(w) && Enabled(w, OnLibrary(lop))
    ensures Inv(w')
    ensures w.log <= w'.log
    ensures Persists(w, w')
  {
    match lop
    case Open(name) => Construct(w, ld, name).0
    case CopyOwner(src) => CopyConstruct(w, src).0
    case MoveOwner(src) => MoveConstruct(w, src).0
    case CopyAssignOwner(dst, src) => CopyAssign(w, dst, src)
    case MoveAssignOwner(dst, src) => MoveAssign(w, dst, src)
    case SwapOwners(a, b) => Swap(w, a, b)
    case ReleaseOwner(o) => Release(w, o)
    case DestroyOwner(o) => Destroy(w, o)
  }

  /** One binding operation: no cell, owner or log entry changes. */
  function FunctionStep(w: World, ld: Loader, fop: FunctionOp): (w': World)
    requires Inv(w) && Enabled(w, OnFunction(fop))
    ensures Inv(w')
    ensures w'.cells == w.cells && w'.owners == w.owners && w'.log == w.log
  {
    match fop
    case Get(o, symbol) => Resolve(w, ld, o, symbol).0
    case CopyFunction(src) => CopyBinding(w, src).0
    case MoveFunction(src) => MoveBinding(w, src).0
    case CopyAssignFunction(dst, src) => CopyAssignBinding(w, dst, src)
    case MoveAssignFunction(dst, src) => MoveAssignBinding(w, dst, src)
    case DestroyFunction(b) => DestroyBinding(w, b)
  }

  /** One operation of either kind. */
  function Step(w: World, ld: Loader, op: Op): (w': World)
    requires Inv(w) && Enabled(w, op)
    ensures Inv(w')
    ensures w.log <= w'.log
    ensures Persists(w, w')
  {
    match op
    case OnLibrary(lop) => LibraryStep(w, ld, lop)
    case OnFunction(fop) => FunctionStep(w, ld, fop)
  }

  /** Runs `ops` from `w`; `None` when some operation names a variable that
      is out of scope or calls `get` through a null pointer, which the
      source leaves undefined. */
  function Run(w: World, ld: Loader, ops: seq<Op>): (r: Option<World>)
    requires Inv(w)
    ensures r.Some? ==> Inv(r.value) && w.log <= r.value.log && Persists(w, r.value)
    decreases |ops|
  {
    if |ops| == 0 then Some(w)
    else if !Enabled(w, ops[0]) then None
    else Run(Step(w, ld, ops[0]), ld, ops[1..])
  }

  /** A whole program: `ops` run from the state with no variables. */
  function Program(ld: Loader, ops: seq<Op>): (r: Option<World>)
    ensures r.Some? ==> Inv(r.value)
  {
    EmptyInv();
    Run(Empty, ld, ops)
  }

  /** End of scope for the first `n` owner variables. Owner variables are
      numbered in order of construction, and C++ destroys automatic
      objects in the reverse of that order, so the most recent one,
      `n - 1`, is destroyed first. */
  function TearDown(w: World, n: nat): (w': World)
    requires Inv(w) && n <= |w.owners|
    ensures Inv(w') && |w'.owners| == |w.owners| && |w'.cells| == |w.cells|
    ensures forall j :: 0 <= j < n ==> w'.owners[j] == Dead
    ensures forall j :: n <= j < |w.owners| ==> w'.owners[j] == w.owners[j]
    ensures w.log <= w'.log && Persists(w, w')
    decreases n
  {
    if n == 0 then w
    else if w.owners[n - 1].Live? then TearDown(Destroy(w, n - 1), n - 1)
    else TearDown(w, n - 1)
  }

  /** Once no owner variable holds a cell, every cell ever opened has been
      closed, exactly once, with its own token. */
  lemma NoOwnersAllClosedOnce(w: World)
    requires Inv(w)
    requires forall j :: 0 <= j < |w.owners| ==> Held(w.owners[j]).None?
    ensures forall c :: 0 <= c < |w.cells| ==> w.cells[c].closed && CloseCount(w.log, c) == 1
  {
    forall c | 0 <= c < |w.cells|
      ensures w.cells[c].closed && CloseCount(w.log, c) == 1
    {
      assert CellOk(w, c);
      RefCountZero(w.owners, c);
    }
  }

  /** End of scope closes every cell exactly once, null tokens included,
      whatever bindings are still around. */
  lemma TearDownClosesEachCellOnce(w: World)
    requires Inv(w)
    ensures var t := TearDown(w, |w.owners|);
      forall c :: 0 <= c < |t.cells| ==>
        t.cells[c].closed && CloseCount(t.log, c) == 1 && t.cells[c].token == w.cells[c].token
  {
    NoOwnersAllClosedOnce(TearDown(w, |w.owners|));
  }

  /** The close log of any run from the empty state names each cell at
      most once and always with that cell's token; a cell is closed
      exactly when the log names it. */
  lemma RunClosesAtMostOnce(ld: Loader, ops: seq<Op>)
    ensures var r := Program(ld, ops);
      r.Some? ==>
        && (forall c :: 0 <= c < |r.value.cells| ==>
              CloseCount(r.value.log, c) <= 1 && (CloseCount(r.value.log, c) == 1 <==> r.value.cells[c].closed))
        && (forall i :: 0 <= i < |r.value.log| ==>
              r.value.log[i].token == r.value.cells[r.value.log[i].cell].token)
  {
    var r := Program(ld, ops);
    if r.Some? {
      forall c | 0 <= c < |r.value.cells|
        ensures CloseCount(r.value.log, c) <= 1 && (CloseCount(r.value.log, c) == 1 <==> r.value.cells[c].closed)
      {
        assert CellOk(r.value, c);
      }
    }
  }

  /** Every cell opened by a run from the empty state is closed exactly
      once by the time all owners have gone out of scope. */
  lemma ProgramClosesEachCellOnce(ld: Loader, ops: seq<Op>, w: World)
    requires Program(ld, ops) == Some(w)
    ensures var t := TearDown(w, |w.owners|);
      forall c :: 0 <= c < |t.cells| ==> CloseCount(t.log, c) == 1
  {
    TearDownClosesEachCellOnce(w);
  }

  /** Two libraries opened one after the other are closed in the reverse
      order at end of scope: the second one's token is passed to
      `close_library` first. */
  lemma TearDownClosesLastFirst(ld: Loader, first: string, second: string)
    ensures var (w1, a) := Construct(Empty, ld, first);
      var (w2, b) := Construct(w1, ld, second);
      TearDown(w2, |w2.owners|).log == [CloseEvent(1, ld.open(second)), CloseEvent(0, ld.open(first))]
  {
  }

  /** `release()` is per owner: after opening a library, copying the
      owner, binding a symbol and releasing the original, the copy is
      still true, nothing has been closed, and the binding is still true
      whenever the symbol resolved. */
  lemma ReleaseIsPerOwner(ld: Loader, name: string, symbol: string)
    ensures var (w1, orig) := Construct(Empty, ld, name);
      var (w2, copy) := CopyConstruct(w1, orig);
      var (w3, f) := Resolve(w2, ld, orig, symbol);
      var w4 := Release(w3, orig);
      && IsLive(w4, copy) && LibraryBool(w4, copy)
      && !LibraryBool(w4, orig)
      && w4.log == []
      && Observable(w4, f)
      && (BindingBool(w4, f) <==> ld.resolve(ld.open(name), symbol) != NullAddress)
  {
  }

  /** A failed open is not visible through `operator bool`: a library
      whose loader returned a null token is still true, and it is still
      closed (with the null token) when it goes out of scope. */
  lemma FailedOpenStillTrue(ld: Loader, name: string)
    requires ld.open(name) == NullHandle
    ensures var (w1, o) := Construct(Empty, ld, name);
      && LibraryBool(w1, o)
      && Destroy(w1, o).log == [CloseEvent(0, NullHandle)]
  {
  }
}

=== FILE: native_loader.dfy ===
/** The operating-system side of `dylib`: the three loader primitives
    (`open_library`, `get_function`, `close_library`) are foreign calls, so
    their results are opaque values supplied from outside the model. */
module NativeLoader {

  /** A `dll_handle` (`void*` from `dlopen`, `HMODULE` from `LoadLibrary`).
      `NullHandle` is what a failed open returns. */
  datatype NativeHandle = NullHandle | Handle(id: nat)

  /** An untyped symbol address from `dlsym` / `GetProcAddress`;
      `NullAddress` is what a failed lookup returns. */
  datatype Address = NullAddress | Address(at: nat)

  /** The loader as seen by the library: `open` stands for `open_library`
      and `resolve` for `get_function`. Closing is not a function here: the
      model records each `close_library` call as an event in a log. */
  datatype Loader = Loader(open: string -> NativeHandle, resolve: (NativeHandle, string) -> Address)
}

=== FILE: ownership_store.dfy ===
/** The shared-ownership store behind `dylib::library`: the cells that
    `std::make_shared<_detail::handle_object>` allocates, their strong
    counts, the owner and binding values that point at them, and the log of
    `close_library` calls that a cell's destruction performs. */
module OwnershipStore {
  import opened NativeLoader

  type CellId = nat

  datatype Option<+T> = None | Some(value: T)

  /** A `_detail::handle_object` together with its `shared_ptr` control block:
      the native token it owns, how many `shared_ptr`s point at it, and whether
      its destructor (and hence `close_library`) has run. */
  datatype Cell = Cell(token: NativeHandle, strong: nat, closed: bool)

  /** A `dylib::library` value: its `shared_ptr` (`None` is a null pointer)
      and the name it was constructed with. */
  datatype Library = Library(handle: Option<CellId>, name: string)

  /** A `dylib::function<Sig>` value: the resolved address, the symbol name
      and the `weak_ptr` to the cell (`None` is an empty `weak_ptr`). */
  datatype Binding = Binding(addr: Address, symbol: string, observed: Option<CellId>)

  /** A program variable: still in scope (`Live`) or already destroyed (`Dead`). */
  datatype Slot<+T> = Dead | Live(value: T)

  /** One call of `close_library`, made by the destructor of the given cell. */
  datatype CloseEvent = CloseEvent(cell: CellId, token: NativeHandle)

  /** The whole state: cells are indexed by `CellId`, owner and binding
      variables by their position; `log` lists the closes in order. */
  datatype World = World(cells: seq<Cell>, owners: seq<Slot<Library>>, bindings: seq<Slot<Binding>>, log: seq<CloseEvent>)

  const Empty: World := World([], [], [], [])

  /** The cell an owner variable keeps alive, if any. */
  function Held(s: Slot<Library>): Option<CellId>
  {
    if s.Live? then s.value.handle else None
  }

  function Holds(s: Slot<Library>, c: CellId): nat
  {
    if Held(s) == Some(c) then 1 else 0
  }

  /** How many owner variables point at cell `c`. */
  function RefCount(owners: seq<Slot<Library>>, c: CellId): nat
  {
    if |owners| == 0 then 0
    else RefCount(owners[..|owners| - 1], c) + Holds(owners[|owners| - 1], c)
  }

  /** How many times the log records a close of cell `c`. */
  function CloseCount(log: seq<CloseEvent>, c: CellId): nat
  {
    if |log| == 0 then 0
    else CloseCount(log[..|log| - 1], c) + (if log[|log| - 1].cell == c then 1 else 0)
  }

  /** Owner `o` holds a cell that no other owner variable shares. */
  predicate SoleHolder(owners: seq<Slot<Library>>, o: nat)
    requires o < |owners|
  {
    && Held(owners[o]).Some?
    && forall j :: 0 <= j < |owners| && j != o ==> Held(owners[j]) != Held(owners[o])
  }

  // ---------------------------------------------------------------------
  // The invariant every reachable state keeps

  ghost predicate HandlesInRange(w: World)
  {
    forall o :: 0 <= o < |w.owners| && Held(w.owners[o]).Some? ==> Held(w.owners[o]).value < |w.cells|
  }

  ghost predicate ObservedInRange(w: World)
  {
    forall b :: 0 <= b < |w.bindings| && w.bindings[b].Live? && w.bindings[b].value.observed.Some? ==>
      w.bindings[b].value.observed.value < |w.cells|
  }

  /** One cell is consistent with the rest of the state: its strong count
      is exactly the number of owner variables pointing at it (bindings do
      not count), it has been destroyed exactly when that count is zero, and
      the log records its close once if it is destroyed and never otherwise. */
  ghost predicate CellOk(w: World, c: CellId)
    requires c < |w.cells|
  {
    && w.cells[c].strong == RefCount(w.owners, c)
    && (w.cells[c].closed <==> w.cells[c].strong == 0)
    && CloseCount(w.log, c) == (if w.cells[c].closed then 1 else 0)
  }

  ghost predicate CellsOk(w: World)
  {
    forall c :: 0 <= c < |w.cells| ==> CellOk(w, c)
  }

  /** Every close event names a real cell and passes that cell's own token. */
  ghost predicate LogFaithful(w: World)
  {
    forall i :: 0 <= i < |w.log| ==> w.log[i].cell < |w.cells| && w.log[i].token == w.cells[w.log[i].cell].token
  }

  ghost predicate Inv(w: World)
  {
    && HandlesInRange(w)
    && ObservedInRange(w)
    && CellsOk(w)
    && LogFaithful(w)
  }

  lemma EmptyInv()
    ensures Inv(Empty)
  {
  }

  // ---------------------------------------------------------------------
  // Counting lemmas

  lemma RefCountAppend(s: seq<Slot<Library>>, v: Slot<Library>, c: CellId)
    ensures RefCount(s + [v], c) == RefCount(s, c) + Holds(v, c)
  {
  }

  /** Overwriting one owner variable moves its contribution from the old
      cell to the new one and leaves every other count alone. */
  lemma {:induction false} RefCountUpdate(s: seq<Slot<Library>>, i: nat, v: Slot<Library>, c: CellId)
    requires i < |s|
    ensures RefCount(s[i := v], c) + Holds(s[i], c) == RefCount(s, c) + Holds(v, c)
  {
    var n := |s| - 1;
    if i == n {
      assert s[i := v][..n] == s[..n];
    } else {
      assert s[i := v][..n] == s[..n][i := v];
      RefCountUpdate(s[..n], i, v, c);
    }
  }

  /** Nobody is counted exactly when no owner variable holds the cell. */
  lemma {:induction false} RefCountZero(s: seq<Slot<Library>>, c: CellId)
    ensures RefCount(s, c) == 0 <==> forall i :: 0 <= i < |s| ==> Held(s[i]) != Some(c)
  {
    if |s| > 0 {
      var n := |s| - 1;
      RefCountZero(s[..n], c);
      assert forall i :: 0 <= i < n ==> s[..n][i] == s[i];
    }
  }

  /** An owner is the sole holder of its cell exactly when that cell's
      reference count is one. */
  lemma SoleHolderCount(s: seq<Slot<Library>>, o: nat)
    requires o < |s| && Held(s[o]).Some?
    ensures RefCount(s, Held(s[o]).value) >= 1
    ensures SoleHolder(s, o) <==> RefCount(s, Held(s[o]).value) == 1
  {
    var c := Held(s[o]).value;
    var t := s[o := Dead];
    RefCountUpdate(s, o, Dead, c);
    RefCountZero(t, c);
    assert forall j :: 0 <= j < |s| && j != o ==> t[j] == s[j];
  }

  lemma CloseCountAppend(log: seq<CloseEvent>, e: CloseEvent, c: CellId)
    ensures CloseCount(log + [e], c) == CloseCount(log, c) + (if e.cell == c then 1 else 0)
  {
  }

  lemma {:induction false} CloseCountAbsent(log: seq<CloseEvent>, c: CellId)
    requires forall i :: 0 <= i < |log| ==> log[i].cell != c
    ensures CloseCount(log, c) == 0
  {
    if |log| > 0 {
      var n := |log| - 1;
      assert forall i :: 0 <= i < n ==> log[..n][i] == log[i];
      CloseCountAbsent(log[..n], c);
    }
  }

  /** A cell with no close count appears nowhere in the log. */
  lemma {:induction false} CloseCountZero(log: seq<CloseEvent>, c: CellId)
    requires CloseCount(log, c) == 0
    ensures forall i :: 0 <= i < |log| ==> log[i].cell != c
  {
    if |log| > 0 {
      var n := |log| - 1;
      CloseCountZero(log[..n], c);
      assert forall i :: 0 <= i < n ==> log[..n][i] == log[i];
    }
  }

  // ---------------------------------------------------------------------
  // `shared_ptr` reference moves

  /** The increment a `shared_ptr` copy performs on its target. */
  function Acquire(cells: seq<Cell>, h: Option<CellId>): seq<Cell>
    requires h.Some? ==> h.value < |cells|
  {
    if h.Some? then cells[h.value := cells[h.value].(strong := cells[h.value].strong + 1)] else cells
  }

  /** A `shared_ptr` letting go of its target (`reset`, destruction or
      being overwritten): the count drops, and when it reaches zero the
      `handle_object` destructor passes its token to `close_library`,
      whatever that token is. */
  function Drop(w: World, h: Option<CellId>): World
    requires h.Some? ==> h.value < |w.cells| && w.cells[h.value].strong > 0
  {
    if h.None? then w
    else
      var c := h.value;
      var k := w.cells[c].strong - 1;
      if k == 0 then
        w.(cells := w.cells[c := w.cells[c].(strong := 0, closed := true)],
           log := w.log + [CloseEvent(c, w.cells[c].token)])
      else
        w.(cells := w.cells[c := w.cells[c].(strong := k)])
  }

  /** Owner variable `o` now holds `s`, and its new target is acquired. */
  function Rebound(w: World, o: nat, s: Slot<Library>): World
    requires o < |w.owners|
    requires Held(s).Some? ==> Held(s).value < |w.cells|
  {
    w.(owners := w.owners[o := s], cells := Acquire(w.cells, Held(s)))
  }

  /** The event list a dropped reference adds: one close of the previous
      cell exactly when `o` was its sole holder and `s` does not keep it. */
  function LastClose(w: World, o: nat, s: Slot<Library>): seq<CloseEvent>
    requires o < |w.owners|
    requires Held(w.owners[o]).Some? ==> Held(w.owners[o]).value < |w.cells|
  {
    if Held(w.owners[o]) != Held(s) && SoleHolder(w.owners, o)
    then [CloseEvent(Held(w.owners[o]).value, w.cells[Held(w.owners[o]).value].token)]
    else []
  }

  /** The previous cell of a reassigned owner still has a reference to drop. */
  lemma ReassignDroppable(w: World, o: nat, s: Slot<Library>)
    requires Inv(w) && o < |w.owners|
    requires Held(s).Some? ==> Held(s).value < |w.cells| && w.cells[Held(s).value].strong > 0
    ensures Held(w.owners[o]).Some? ==>
      Held(w.owners[o]).value < |Rebound(w, o, s).cells| && Rebound(w, o, s).cells[Held(w.owners[o]).value].strong > 0
    ensures Held(w.owners[o]).Some? ==>
      (Rebound(w, o, s).cells[Held(w.owners[o]).value].strong == 1 <==> Held(w.owners[o]) != Held(s) && SoleHolder(w.owners, o))
  {
    var prev := Held(w.owners[o]);
    if prev.Some? {
      var p := prev.value;
      SoleHolderCount(w.owners, o);
      assert CellOk(w, p);
    }
  }

  /** Reassignment keeps each cell consistent, keeps its token, and never
      reopens a destroyed cell. */
  lemma ReassignCell(w: World, o: nat, s: Slot<Library>, c: CellId)
    requires Inv(w) && o < |w.owners| && c < |w.cells|
    requires Held(s).Some? ==> Held(s).value < |w.cells| && w.cells[Held(s).value].strong > 0
    ensures Held(w.owners[o]).Some? ==>
      Held(w.owners[o]).value < |Rebound(w, o, s).cells| && Rebound(w, o, s).cells[Held(w.owners[o]).value].strong > 0
    ensures var w2 := Drop(Rebound(w, o, s), Held(w.owners[o]));
      && c < |w2.cells|
      && CellOk(w2, c)
      && w2.cells[c].token == w.cells[c].token
      && (w.cells[c].closed ==> w2.cells[c].closed)
  {
    ReassignDroppable(w, o, s);
    var prev := Held(w.owners[o]);
    var w1 := Rebound(w, o, s);
    var w2 := Drop(w1, prev);
    assert CellOk(w, c);
    RefCountUpdate(w.owners, o, s, c);
    if prev == Some(c) {
      if w1.cells[c].strong == 1 {
        CloseCountAppend(w.log, CloseEvent(c, w.cells[c].token), c);
      }
    } else if prev.Some? {
      if w1.cells[prev.value].strong == 1 {
        CloseCountAppend(w.log, CloseEvent(prev.value, w.cells[prev.value].token), c);
      }
      assert w2.cells[c] == w1.cells[c];
    } else {
      assert w2.cells[c] == w1.cells[c];
    }
  }

  lemma ReassignSound(w: World, o: nat, s: Slot<Library>)
    requires Inv(w) && o < |w.owners|
    requires Held(s).Some? ==> Held(s).value < |w.cells| && w.cells[Held(s).value].strong > 0
    ensures Held(w.owners[o]).Some? ==>
      Held(w.owners[o]).value < |Rebound(w, o, s).cells| && Rebound(w, o, s).cells[Held(w.owners[o]).value].strong > 0
    ensures var w2 := Drop(Rebound(w, o, s), Held(w.owners[o]));
      && Inv(w2)
      && w2.log == w.log + LastClose(w, o, s)
      && forall c :: 0 <= c < |w.cells| ==>
           && w2.cells[c].token == w.cells[c].token
           && (w.cells[c].closed ==> w2.cells[c].closed)
           && w2.cells[c].strong + Holds(w.owners[o], c) == w.cells[c].strong + Holds(s, c)
  {
    ReassignDroppable(w, o, s);
    var w2 := Drop(Rebound(w, o, s), Held(w.owners[o]));
    forall c | 0 <= c < |w.cells|
      ensures && CellOk(w2, c)
              && w2.cells[c].token == w.cells[c].token
              && (w.cells[c].closed ==> w2.cells[c].closed)
              && w2.cells[c].strong + Holds(w.owners[o], c) == w.cells[c].strong + Holds(s, c)
    {
      ReassignCell(w, o, s, c);
      assert CellOk(w, c);
      RefCountUpdate(w.owners, o, s, c);
    }
  }

  /** Point owner variable `o` at `s`: acquire the new target first, then
      drop the previous one, as `shared_ptr` assignment does. */
  function Reassign(w: World, o: nat, s: Slot<Library>): (w': World)
    requires Inv(w) && o < |w.owners|
    requires Held(s).Some? ==> Held(s).value < |w.cells| && w.cells[Held(s).value].strong > 0
    ensures Inv(w')
    ensures w'.owners == w.owners[o := s] && w'.bindings == w.bindings
    ensures |w'.cells| == |w.cells|
    ensures forall c :: 0 <= c < |w.cells| ==>
      w'.cells[c].token == w.cells[c].token && (w.cells[c].closed ==> w'.cells[c].closed)
    ensures forall c :: 0 <= c < |w.cells| ==>
      w'.cells[c].strong + Holds(w.owners[o], c) == w.cells[c].strong + Holds(s, c)
    ensures w'.log == w.log + LastClose(w, o, s)
  {
    ReassignSound(w, o, s);
    Drop(Rebound(w, o, s), Held(w.owners[o]))
  }

  /** A new owner variable holding `s` comes into scope. */
  function AddOwner(w: World, s: Slot<Library>): (w': World)
    requires Inv(w)
    requires Held(s).Some? ==> Held(s).value < |w.cells| && w.cells[Held(s).value].strong > 0
    ensures Inv(w')
    ensures w'.owners == w.owners + [s] && w'.bindings == w.bindings && w'.log == w.log
    ensures |w'.cells| == |w.cells|
    ensures forall c :: 0 <= c < |w.cells| ==> w'.cells[c].token == w.cells[c].token
    ensures forall c :: 0 <= c < |w.cells| ==> w'.cells[c].strong == w.cells[c].strong + Holds(s, c)
    ensures forall c :: 0 <= c < |w.cells| ==> w'.cells[c].closed == w.cells[c].closed
  {
    AddOwnerSound(w, s);
    w.(owners := w.owners + [s], cells := Acquire(w.cells, Held(s)))
  }

  lemma AddOwnerSound(w: World, s: Slot<Library>)
    requires Inv(w)
    requires Held(s).Some? ==> Held(s).value < |w.cells| && w.cells[Held(s).value].strong > 0
    ensures Inv(w.(owners := w.owners + [s], cells := Acquire(w.cells, Held(s))))
  {
    var w' := w.(owners := w.owners + [s], cells := Acquire(w.cells, Held(s)));
    forall c | 0 <= c < |w.cells|
      ensures CellOk(w', c)
    {
      assert CellOk(w, c);
      RefCountAppend(w.owners, s, c);
    }
  }
}
